=== FILE: README.md ===
# Blogit posts and post types, modelled in Dafny

This project models the core of the Blogit engine's post model: the life cycle
of a `Blogit::Post` as it is saved, its publish-and-announce transition, the
listing scopes built on it, its two presentation accessors, and the
`Blogit::Type` registry of post categories.

The framework callbacks of `Post` are written out as one ordered, pure save
pipeline (`Posts.Save`) over an explicit store:

1. `set_blogger` (before validation): a blank author becomes the result of the
   admin lookup, which may be nothing.
2. The validations: title present and 1..72 characters long, body present and
   at least 10 characters long, `blogger_id` present.
3. `set_default_type` (before save, so only after validation passed): a blank
   type becomes the "blog" type, found or created.
4. The row write: an insert for a new record, a partial update for a stored one.
   A partial update writes only the attributes that differ from the record's
   dirty-tracking snapshot.
5. `publish` (after save): when `published_for_the_first_time?` holds, the
   in-memory record gets `published_on = now`. A "blog" or "press" post is then
   announced, and the same message goes to both channels (Twitter, then
   Facebook). The channels are an append-only log of messages.

`set_default_type` calls `find_or_create_by_name` with the Symbol `:blog`. In
the Rails versions that provide `attr_accessible` and the dynamic
`find_or_create_by_*` finders (3.x to 4.1), a string attribute is not cast on
write. So a type created by that call keeps the Symbol as its in-memory
`name`, and the record's cached `type` association reports that Symbol. The
model tracks this cache in `Record.builtType`.

The in-memory Active Record object is a `Record`. It holds the current
attributes and the snapshot that `is_published_changed?` compares them with.
Storage is a `Db`: the type registry, the posts table as a sequence, and the
next id. The world (`World`) is storage plus the message log.

Modules: `Results` (Option/Result), `Text` (whitespace, decimal rendering,
`to_i`), `Seqs` (order-preserving filter, sub-sequences, stable sort,
pagination windows), `Types` (type.rb), `Posts` (post.rb), `Queries` (the
scopes of post.rb), and `Lifecycle` (several saves in a row, and the
`published_on` finding below).

Inputs the source takes from outside are parameters:
- the clock (`now`);
- the admin lookup's result and the authors the polymorphic `blogger`
  association can load (`Env.authors`, `Env.admin`);
- the site host name and the two route helpers (`Env`);
- the configured page size (`per`);
- the configured display-name method;
- `String#parameterize`.

Behaviour of the code worth knowing:
- A missing admin author is not an error of its own. `set_blogger` assigns
  nil, and validation then fails on `blogger_id`.
- The author default runs before validation. The type default is a
  before-save callback, so it runs only after validation passed.
- The title may be up to 72 characters long.
- `published_on` is not written by the save that assigns it (see Findings).
  So "announced once" holds per in-memory record, not per stored post.
- A post whose default type is created by its own save is not announced
  (see Findings).

## Model

| member | source | states |
|---|---|---|
| Posts.Save | app/models/blogit/post.rb:3-5 | The save succeeds iff title and body pass validation and the post has a loadable author or the admin lookup found one. An explicit author is kept; a blank one becomes the admin lookup's result. The reported errors are exactly the validation errors of the post with its author defaulted, so a successful save reports none. A failed save changes no storage, sends nothing, defaults no type and stamps nothing. A set type is kept. A blank one becomes the "blog" type, and when that type is created by this save the record caches it under the Symbol name. `published_on` is set to `now` exactly when the guard holds, and never overwritten. On the first publication, a "blog" or "press" post whose type is not Symbol-named is announced once, on both channels; otherwise nothing is sent. A new post is inserted without the stamp. An update is a partial write (`Posts.RowWritten`): every changed attribute goes into the record's row, and every unchanged attribute keeps its stored value. Other rows and store validity are preserved. |
| Posts.Commit | app/models/blogit/post.rb:91-116 | After validation: the type default, then the row write, then the publish hook. The type created here is Symbol-named, so its post is not announced. The insert stores the post without the stamp. An update writes every changed attribute into the saved record's row, keeps the stored value of every unchanged one, and leaves other rows alone. |
| Posts.Errors | app/models/blogit/post.rb:31-33 | No errors iff title and body are present, 1 <= title length <= 72, body length >= 10 and `blogger_id` is present. Each of the six errors is reported exactly when its condition holds, and the list holds nothing else. |
| Posts.SetBlogger | app/models/blogit/post.rb:118-122 | Only the author changes. A loadable author is kept, and a blank one becomes the admin lookup's result. The result has an author iff one was loadable or the admin lookup found one. |
| Posts.TitleErrors | app/models/blogit/post.rb:31 | Title errors: blank iff the title is blank; too short iff its length is below 1; too long iff its length exceeds 72. |
| Posts.BodyErrors | app/models/blogit/post.rb:32 | Body errors: blank iff the body is blank; too short iff its length is below 10. |
| Posts.SetDefaultType | app/models/blogit/post.rb:91-95 | A type that loads is left unchanged, and so is the registry. Otherwise the post gets the type named "blog" and the registry grows by at most one type. The result always has a loadable type, and registry validity is preserved. |
| Posts.Publish | app/models/blogit/post.rb:97-116 | The stamp is `now` iff the flag changed in this save, is set, and no stamp existed; otherwise the stamp is untouched. The announcement is appended iff the guard holds and the type's in-memory name is not the Symbol `:blog`; otherwise nothing is sent. |
| Posts.GuardIsOneShot | app/models/blogit/post.rb:97-99 | The first-publication guard needs a snapshot that was unpublished, and once the stamp is set it never holds again, whatever the snapshot. |
| Posts.Announcement | app/models/blogit/post.rb:104-114 | "blog" gives "New blog post - {title} http://{host}{blog path}". "press" gives "New press release - {title} http://{host}{press path}". Each is sent to Twitter and then Facebook. Any other type name sends nothing. |
| Posts.Persist | app/models/blogit/post.rb:3-4 | The write between the before-save and after-save hooks. A new record is inserted with the next id and a creation time. For a stored record, every attribute that differs from the snapshot is written into its row, and every other attribute keeps its stored value. Other rows are unchanged, and store validity is preserved. |
| Posts.SnapshotRowBecomesRecord | app/models/blogit/post.rb:3-4 | A partial write into a row that still equals the snapshot leaves exactly the record's attributes in that row. |
| Posts.Assign | app/models/blogit/post.rb:21 | Each given accessible attribute (title, body, tags, blogger, type, flag) takes the given value, and every absent one keeps its value. Id, `published_on`, `created_at`, the snapshot and the type cache are untouched. |
| Posts.Build | app/models/blogit/post.rb:21 | `Post.new(params)` has no id or stamps, its snapshot is the column defaults and its type cache is empty. Its title and body are the given ones or empty. Its first save is a first publication iff the parameters set `is_published`. |
| Posts.Update | app/models/blogit/post.rb:21 | `update_attributes` writes nothing when it fails, and reports the validation errors of the assigned post. A successful update of a stored record keeps its id and adds no row, and holds the given title and body. The flag always takes the given value. |
| Lifecycle.RowStampKept | app/models/blogit/post.rb:101-103 | Edits saved through a record whose stamp agrees with its snapshot never change the `published_on` stored in its row. |
| Lifecycle.StampNeverStored | app/models/blogit/post.rb:101-103 | As written: after the first save of a new published post, the record holds the stamp but its row does not, and no later edit through that record stores it. |
| Lifecycle.UpdateLoadsBack | app/models/blogit/post.rb:21 | After a successful `update_attributes` on a freshly loaded post, loading it again gives the saved attributes, except a `published_on` stamp this save assigned. |
| Posts.Load | app/controllers/blogit/posts_controller.rb:35 | Finding by id succeeds iff a row has that id. It returns that row as a clean record, otherwise a not-found error. |
| Posts.ToParam | app/models/blogit/post.rb:68-70 | The result is the id in decimal digits without leading zeros, a dash, then the parameterized title. Its `to_i` gives back the id, which is how `Post.find` reads it. Without an id it is "-" followed by the slug. |
| Posts.BloggerDisplayName | app/models/blogit/post.rb:74-83 | It is a configuration error ("Class#method is not defined") iff a loaded author lacks the method. It is "" when there is no author, and otherwise the method's value. |
| Types.Create | app/models/blogit/type.rb:6-7 | Creation succeeds iff the name is not blank and not taken. Each error is reported exactly when its condition holds. It appends exactly one type with that name, leaves every earlier type unchanged and preserves validity (non-blank unique names, unique ids). |
| Types.FindOrCreate | app/models/blogit/post.rb:93 | A taken name returns the existing type with the registry unchanged. Otherwise exactly one type is added. A non-blank name always succeeds, and validity (unique names) is preserved. |
| Types.FindByName | app/models/blogit/post.rb:93 | The finder returns a type iff one is stored under that name, and the type returned is a stored one with that name. |
| Types.Lookup | app/models/blogit/post.rb:40 | Loading the type association finds a type iff one has that id, and the type found carries that id. |
| Types.ToOptions | app/models/blogit/type.rb:11-13 | Exactly one (name, id) pair per stored type: same count, every stored type listed, every pair a stored type. The list is ordered by ascending id. |
| Types.ToOptionsStrictlyAscending | app/models/blogit/type.rb:12 | In a valid registry the ids of `to_options` strictly ascend, so no type is listed twice. |
| Queries.Published | app/models/blogit/post.rb:59 | Exactly the published rows, as a sub-sequence of the table. |
| Queries.Ordered | app/models/blogit/post.rb:60 | The whole table ordered by `created_at`, newest first, with every stored row exactly once. |
| Queries.ForIndex | app/models/blogit/post.rb:60 | Page n holds min(`per`, posts left) posts, newest first. It is the window of the ordered table at offset (max(n,1)-1)*per, and a page past the end is empty. |
| Queries.OfType | app/models/blogit/post.rb:61 | Exactly the posts whose type has the given name, as an order-preserving sub-sequence of the ordered table. |
| Queries.PaginatedByType | app/models/blogit/post.rb:61 | The window of min(`per`, posts left) posts at the page's offset into the posts of the named type, newest first, as a sub-sequence of the ordered table. A page past the end is empty. |
| Queries.OfTypeWithTag | app/models/blogit/post.rb:62 | Exactly the posts of the named type that carry the tag, as a sub-sequence of the ordered table. |
| Queries.PaginatedByTypeWithTag | app/models/blogit/post.rb:62 | The window of min(`per`, posts left) posts at the page's offset into the posts of the named type carrying the tag, newest first, as a sub-sequence of the ordered table. A page past the end is empty. |
| Queries.EveryPostIsIndexed | app/models/blogit/post.rb:60 | Every stored post appears on some index page. |
| Queries.EveryPostOfTypeIsListed | app/models/blogit/post.rb:61 | Every stored post of a type appears on some page of that type's listing. |
| Queries.IndexPagesReadInTurn | app/models/blogit/post.rb:16 | The `for_index` pages 1..m, concatenated, are exactly the ordered posts up to the offset where page m + 1 starts (m*per), with no gaps and no repeats. |
| Lifecycle.StampIsPermanent | app/models/blogit/post.rb:97-103 | Once the in-memory record has a `published_on`, no later edit changes it and none announces anything. |
| Lifecycle.ToggleIsSilent | app/models/blogit/post.rb:97-99 | On a stamped record, unpublishing and then publishing again sends nothing. |
| Lifecycle.AnnouncesAtMostOnce | app/models/blogit/post.rb:101-116 | Any sequence of edits saved through one record appends at most one announcement (two messages) to the log. |
| Lifecycle.UnstampedRowRepublishes | app/models/blogit/post.rb:97-103 | Take a stored, valid, published "blog" or "press" row without a stamp, loaded as a clean record. Unpublishing and then publishing it sends a fresh announcement. |
| Lifecycle.ReloadedPostAnnouncesAgain | app/models/blogit/post.rb:101-103 | As written: a new, valid, published post whose type defaults to "blog" is saved, and announced (two messages) when the "blog" type already existed. Its stored row has no `published_on`. Loaded back, unpublished and published again, it is announced (again). |
| Lifecycle.SaveCorrected | app/models/blogit/post.rb:91-116 | Corrected pipeline: the type default keeps the stored name, and the stamp is assigned before the row write, so the inserted row carries it. The first publication of a "blog" or "press" post is announced with the exact message, any other save sends nothing, at most two messages are appended, and store validity is preserved. |
| Lifecycle.FirstBlogPostIsSilent | app/models/blogit/post.rb:91-104 | As written: with no "blog" type stored, a new, valid, published post without a type is saved, stamped and given the new "blog" type, and nothing is sent. |
| Lifecycle.NewPostIsAnnounced | app/models/blogit/post.rb:91-108 | Corrected: a new, valid, published post without a type is announced as a blog post with its new id, whether or not the "blog" type existed before. |
| Lifecycle.ReloadedPostStaysQuiet | app/models/blogit/post.rb:101-103 | Corrected: a new, valid, published post is saved (announced when its type is "blog" or "press") and stored with `published_on = now`. Loaded back, unpublished and published again, it is not announced again. |

## Left out

- `short_body` (app/models/blogit/post.rb:23-25): the truncation helper it calls is not part of this model.
- `String#parameterize` is not defined here. `Posts.ToParam` takes it as a function parameter.
- Comments (app/models/blogit/post.rb:42-51, 87-89): the association and its configuration guard are backend glue.
- Tweeter and Facebooker dispatch, the logger, `Cms::Site.first.hostname` and the route helpers are external calls. Only the emitted messages are modelled, as an append-only log. Host and paths are inputs. A channel call that raises propagates out of the after-save hook: `save` raises, the row write is rolled back and later channels are not called. Such failures are not modelled.
- `Time.now` is the `now` parameter, and `updated_at` is not modelled.
- The posts controller as a whole (HTTP, authentication, caching, sweepers, 404 pages, Pingr search-engine pings). Its page size of 40 is just a value of the `per` parameter. Destroy is controller-driven and not modelled.
- Concurrency: the race between two find-or-create calls, and concurrent saves of one post.
- Tag storage internals. Tags are a set of labels per post. `tagged_with` is exact membership of one label, so the tag library's comma-separated lists and case-insensitive matching are not modelled.
- Kaminari internals: pagination is sequence slicing. Page numbers below 1 read as page 1, which is Kaminari's `page` behaviour.
- Ties in `created_at`: SQL leaves their order open. `Queries.Ordered` uses one stable order and states only newest-first and "every row once".
- A nil title or body is modelled as the empty string. Both are blank, so validation is unaffected. Calling `to_param` on a nil title, which raises in Ruby, is not modelled.
- `blank?` recognises ASCII whitespace only, not Unicode spaces.
- `Text.ToI` reads only leading decimal digits. Ruby's `to_i` also accepts signs, underscores and leading blanks, which `to_param` never produces.
- The `is_published` column default is taken to be false; the migration is not part of this model.
- Types.FindOrCreate: returns an error for a blank name, where Rails returns an unsaved object. The pipeline only calls it with "blog", where it always succeeds.
- A save whose record's row has been deleted behaves as in Rails: it succeeds and writes nothing.
- Posts.Save: the Symbol name of a created type is modelled only for the type `set_default_type` creates, and only while `type_id` still names it. A reload, a type found by name, or a save under another type id drops the cache.
- Posts.Save: the type-name guarantee for a defaulted type is stated only for a valid registry (unique ids). In an invalid one, a lookup by id could find another row.
- Queries.ForIndex, Queries.PaginatedByType, Queries.PaginatedByTypeWithTag, Queries.Ordered: they require a valid store, where every row has an id and a creation time. `Posts.Save` preserves that invariant.

## Findings

| source | as written | input that shows it | evidently intended | confidence | as-written member | corrected member |
|---|---|---|---|---|---|---|
| app/models/blogit/post.rb:101-103 | `published_on` is assigned in the after-save hook, after the row has been written, so storage never receives the stamp. | Create a "blog" post with `is_published` true: its row has no `published_on`, and edits of the same object never store one. Load it again, save it with `is_published` false, then with true: it is announced again. | The first publication stores `published_on`, so a post is announced once in its lifetime. | high; not executed | Lifecycle.ReloadedPostAnnouncesAgain | Lifecycle.SaveCorrected |
| app/models/blogit/post.rb:93 | The default type is found or created with the Symbol `:blog`. A type created by that call keeps the Symbol as its in-memory name, so `type.name == 'blog'` at line 104 is false. | With no "blog" type stored, create a valid post with `is_published` true and no type: it is stamped and nothing is sent. | The new post is announced as a blog post. | medium (depends on Rails 3.x-4.1 not casting on write); not executed | Lifecycle.FirstBlogPostIsSilent | Lifecycle.SaveCorrected |

The main pipeline `Posts.Save` stays as written, because it is the model of the
code. For the first row, `Lifecycle.StampNeverStored` also shows, as written,
that no later edit through the same record ever stores the stamp.
`Lifecycle.SaveCorrected` is the corrected pipeline. Under it,
`Lifecycle.NewPostIsAnnounced` proves that the first publication is announced,
and `Lifecycle.ReloadedPostStaysQuiet` proves that a reload followed by the same
edits stays silent.

=== FILE: lifecycle.dfy ===
/**
 Properties of a post across several saves: the publish stamp on the
 in-memory record is permanent and the announcement goes out at most once
 for it. The stamp is assigned after the row write and so never reaches
 storage, and a post reloaded from storage can be announced again; a
 default type created in the save carries a Symbol name, and its post is
 not announced. The corrected pipeline stamps the post before the write,
 reads type names as stored, announces the first publication and stays
 silent afterwards.
 */
module Lifecycle {
  import opened Results
  import opened Posts

  /** One `update_attributes` call: the attributes assigned and the clock reading at the save. */
  datatype Edit = Edit(patch: Patch, now: Timestamp)

  const Unpublish := Patch(None, None, None, None, None, Some(false))
  const Republish := Patch(None, None, None, None, None, Some(true))

  /** Successive edits saved through one in-memory record. */
  function Run(w: World, rec: Record, env: Env, edits: seq<Edit>): (World, Record)
    decreases |edits|
  {
    if |edits| == 0 then (w, rec)
    else
      var o := Update(w, rec, edits[0].patch, env, edits[0].now);
      Run(o.world, o.rec, env, edits[1..])
  }

  /** Once the record carries a stamp, no edit changes it and nothing more is announced. */
  lemma {:induction false} StampIsPermanent(w: World, rec: Record, env: Env, edits: seq<Edit>)
    requires rec.attrs.publishedOn.Some?
    ensures Run(w, rec, env, edits).1.attrs.publishedOn == rec.attrs.publishedOn
    ensures Run(w, rec, env, edits).0.outbox == w.outbox
    decreases |edits|
  {
    if |edits| > 0 {
      var o := Update(w, rec, edits[0].patch, env, edits[0].now);
      StampIsPermanent(o.world, o.rec, env, edits[1..]);
    }
  }

  /** Toggling the flag off and on again after the first publication announces nothing. */
  lemma ToggleIsSilent(w: World, rec: Record, env: Env, t1: Timestamp, t2: Timestamp)
    requires rec.attrs.publishedOn.Some?
    ensures Run(w, rec, env, [Edit(Unpublish, t1), Edit(Republish, t2)]).0.outbox == w.outbox
  {
    StampIsPermanent(w, rec, env, [Edit(Unpublish, t1), Edit(Republish, t2)]);
  }

  /** Any sequence of edits of one record appends at most one announcement (two messages) to the log. */
  lemma {:induction false} AnnouncesAtMostOnce(w: World, rec: Record, env: Env, edits: seq<Edit>)
    ensures w.outbox <= Run(w, rec, env, edits).0.outbox
    ensures |Run(w, rec, env, edits).0.outbox| <= |w.outbox| + 2
    decreases |edits|
  {
    if |edits| > 0 {
      var o := Update(w, rec, edits[0].patch, env, edits[0].now);
      if o.rec.attrs.publishedOn.Some? {
        StampIsPermanent(o.world, o.rec, env, edits[1..]);
      } else {
        assert o.world.outbox == w.outbox;
        AnnouncesAtMostOnce(o.world, o.rec, env, edits[1..]);
      }
    }
  }

  /** Every stored row of the post `id` carries `stamp` as its `published_on`. */
  predicate RowStamp(db: Db, id: nat, stamp: Option<Timestamp>) {
    forall i :: 0 <= i < |db.posts| && db.posts[i].id == Some(id) ==> db.posts[i].publishedOn == stamp
  }

  /**
   One edit of a stored record whose stamp agrees with its snapshot leaves
   the stamp in the record's row as it was, and the agreement holds again.
   */
  lemma UpdateKeepsRowStamp(w: World, rec: Record, patch: Patch, env: Env, now: Timestamp,
                            id: nat, stamp: Option<Timestamp>)
    requires StoreValid(w.db) && RowStamp(w.db, id, stamp)
    requires rec.attrs.id == Some(id) && rec.attrs.publishedOn == rec.clean.publishedOn
    ensures var o := Update(w, rec, patch, env, now);
            && StoreValid(o.world.db) && RowStamp(o.world.db, id, stamp)
            && o.rec.attrs.id == Some(id) && o.rec.attrs.publishedOn == o.rec.clean.publishedOn
  {
    var a := Assign(rec, patch);
    var o := Save(w, a, env, now);
    if o.saved {
      var row := o.rec.attrs.(publishedOn := a.attrs.publishedOn);
      assert row.id == Some(id) && row.publishedOn == a.clean.publishedOn;
      forall i | 0 <= i < |o.world.db.posts| && o.world.db.posts[i].id == Some(id)
        ensures o.world.db.posts[i].publishedOn == stamp
      {
        if w.db.posts[i].id == Some(id) {
          assert PartiallyUpdated(o.world.db.posts[i], w.db.posts[i], row, a.clean);
        }
      }
    }
  }

  /** Any run of edits through such a record leaves the stamp in its row as it was. */
  lemma {:induction false} RowStampKept(w: World, rec: Record, env: Env, edits: seq<Edit>,
                                        id: nat, stamp: Option<Timestamp>)
    requires StoreValid(w.db) && RowStamp(w.db, id, stamp)
    requires rec.attrs.id == Some(id) && rec.attrs.publishedOn == rec.clean.publishedOn
    ensures RowStamp(Run(w, rec, env, edits).0.db, id, stamp)
    decreases |edits|
  {
    if |edits| > 0 {
      var o := Update(w, rec, edits[0].patch, env, edits[0].now);
      UpdateKeepsRowStamp(w, rec, edits[0].patch, env, edits[0].now, id, stamp);
      RowStampKept(o.world, o.rec, env, edits[1..], id, stamp);
    }
  }

  /**
   As written: the first save of a new, published post stamps the record in
   memory only; its row is stored unstamped and stays so through any later
   edits of the same record, while the record keeps its stamp.
   */
  lemma StampNeverStored(w: World, p: Post, env: Env, t0: Timestamp, edits: seq<Edit>)
    requires StoreValid(w.db)
    requires p.id.None? && p.isPublished && p.publishedOn.None?
    requires Accepted(p, env)
    ensures var o := Save(w, Record(p, Fresh, None), env, t0);
            && o.saved
            && o.rec.attrs.publishedOn == Some(t0)
            && var end := Run(o.world, o.rec, env, edits);
               && end.1.attrs.publishedOn == Some(t0)
               && forall i :: 0 <= i < |end.0.db.posts| && end.0.db.posts[i].id == o.rec.attrs.id ==>
                    end.0.db.posts[i].publishedOn.None?
  {
    var o := Save(w, Record(p, Fresh, None), env, t0);
    assert PublishedForTheFirstTime(p, Fresh);
    var id := w.db.nextPostId;
    assert o.rec.attrs.id == Some(id);
    forall i | 0 <= i < |o.world.db.posts| && o.world.db.posts[i].id == Some(id)
      ensures o.world.db.posts[i].publishedOn.None?
    {
      if i < |w.db.posts| {
        // stored ids lie below the next id
        assert false;
      }
    }
    RowStampKept(o.world, o.rec, env, edits, id, None);
    StampIsPermanent(o.world, o.rec, env, edits);
  }

  /** Loading the row an insert just wrote gives back that row as a clean record. */
  lemma LoadInserted(before: Db, after: Db, row: Post)
    requires StoreValid(after)
    requires row.id.Some?
    requires after.posts == before.posts + [row]
    ensures Load(after, row.id.value) == Ok(Record(row, row, None))
  {
    var k := |before.posts|;
    var loaded := Load(after, row.id.value);
    assert after.posts[k] == row;
    assert loaded.Ok?;
    var j :| 0 <= j < |after.posts| && after.posts[j] == loaded.value.attrs;
    assert j == k;
  }

  /**
   `update_attributes` on a post just loaded from storage: when it succeeds,
   loading the post again gives back the saved attributes, except for a
   `published_on` stamp this save assigned.
   */
  lemma UpdateLoadsBack(w: World, id: nat, patch: Patch, env: Env, now: Timestamp)
    requires StoreValid(w.db) && Load(w.db, id).Ok?
    ensures var rec := Load(w.db, id).value;
            var o := Update(w, rec, patch, env, now);
            o.saved ==> Load(o.world.db, id) == Ok(Record(o.rec.attrs.(publishedOn := rec.attrs.publishedOn),
                                                          o.rec.attrs.(publishedOn := rec.attrs.publishedOn), None))
  {
    var rec := Load(w.db, id).value;
    var o := Update(w, rec, patch, env, now);
    if o.saved {
      var i :| 0 <= i < |w.db.posts| && w.db.posts[i] == rec.attrs;
      var row := o.rec.attrs.(publishedOn := rec.attrs.publishedOn);
      assert w.db.posts[i].id == rec.attrs.id;
      SnapshotRowBecomesRecord(o.world.db.posts[i], w.db.posts[i], row, rec.clean);
      var loaded := Load(o.world.db, id);
      var j :| 0 <= j < |o.world.db.posts| && o.world.db.posts[j] == loaded.value.attrs;
      assert j == i;
    }
  }

  /**
   A stored, valid, published but unstamped "blog" or "press" post, loaded
   as a clean record, is announced when unpublished and published again.
   */
  lemma UnstampedRowRepublishes(w: World, row: Post, env: Env, t1: Timestamp, t2: Timestamp)
    requires Accepted(row, env) && row.isPublished && row.publishedOn.None? && row.id.Some?
    requires TypeNameOf(w.db.types, row) in {Some("blog"), Some("press")}
    ensures var o1 := Update(w, Record(row, row, None), Unpublish, env, t1);
            var o2 := Update(o1.world, o1.rec, Republish, env, t2);
            |o2.world.outbox| == |w.outbox| + 2
  {
    var reg := w.db.types;
    var o1 := Update(w, Record(row, row, None), Unpublish, env, t1);
    assert o1.saved && o1.world.db.types == reg && o1.world.outbox == w.outbox;
    assert o1.rec.attrs.typeId == row.typeId && o1.rec.attrs.publishedOn.None?;
    assert !o1.rec.attrs.isPublished && o1.rec.clean == o1.rec.attrs;
    assert !SymbolNamed(o1.rec.attrs, o1.rec.builtType);
    assert Accepted(o1.rec.attrs, env);
    var o2 := Update(o1.world, o1.rec, Republish, env, t2);
    assert PublishedForTheFirstTime(Assign(o1.rec, Republish).attrs, o1.rec.clean);
    assert o2.saved && o2.world.db.types == reg;
    assert TypeNameOf(reg, o2.rec.attrs) == TypeNameOf(reg, row);
  }

  /**
   As written: the first save of a new, published post whose type is
   defaulted is announced only when the "blog" type already existed, and its
   row is stored without the stamp; the post loaded back from storage,
   unpublished and published again, is then announced (again).
   */
  lemma ReloadedPostAnnouncesAgain(w: World, p: Post, env: Env, t0: Timestamp, t1: Timestamp, t2: Timestamp)
    requires StoreValid(w.db)
    requires p.id.None? && p.typeId.None? && p.isPublished && p.publishedOn.None?
    requires Accepted(p, env)
    ensures var o := Save(w, Record(p, Fresh, None), env, t0);
            && o.saved
            && |o.world.outbox| == |w.outbox| + (if Types.Taken(w.db.types, DefaultTypeName) then 2 else 0)
            && var loaded := Load(o.world.db, o.rec.attrs.id.value);
               && loaded.Ok?
               && loaded.value.attrs.publishedOn.None?
               && var o1 := Update(o.world, loaded.value, Unpublish, env, t1);
                  var o2 := Update(o1.world, o1.rec, Republish, env, t2);
                  |o2.world.outbox| == |o.world.outbox| + 2
  {
    var o := Save(w, Record(p, Fresh, None), env, t0);
    assert PublishedForTheFirstTime(p, Fresh);
    assert TypeNameOf(o.world.db.types, o.rec.attrs) == Some("blog");
    var row := o.rec.attrs.(publishedOn := None);
    LoadInserted(w.db, o.world.db, row);
    assert TypeNameOf(o.world.db.types, row) == TypeNameOf(o.world.db.types, o.rec.attrs);
    assert TypeNameOf(o.world.db.types, row) in {Some("blog"), Some("press")};
    assert Accepted(row, env);
    UnstampedRowRepublishes(o.world, row, env, t1, t2);
  }

  /**
   As written: when no "blog" type is stored yet, the first save of a new,
   published post without a type creates the "blog" type and stamps the
   post, yet announces nothing: the created type's in-memory name is the
   Symbol `:blog`, which matches neither name test.
   */
  lemma FirstBlogPostIsSilent(w: World, p: Post, env: Env, t0: Timestamp)
    requires StoreValid(w.db) && !Types.Taken(w.db.types, DefaultTypeName)
    requires p.id.None? && p.typeId.None? && p.isPublished && p.publishedOn.None?
    requires Accepted(p, env)
    ensures var o := Save(w, Record(p, Fresh, None), env, t0);
            && o.saved
            && o.rec.attrs.publishedOn == Some(t0)
            && TypeNameOf(o.world.db.types, o.rec.attrs) == Some("blog")
            && o.world.outbox == w.outbox
  {
    assert PublishedForTheFirstTime(p, Fresh);
  }

  /**
   The corrected post-validation stages: the type default reads the found or
   created type's name as stored, and the first-publication stamp is assigned
   before the row write; the announcement still follows the write.
   */
  function CommitCorrected(w: World, p: Post, clean: Post, env: Env, now: Timestamp): (r: (World, Post))
    ensures r.1.id.Some? && TypeResolves(r.0.db.types, r.1)
    ensures r.1 == p.(typeId := r.1.typeId, id := r.1.id, createdAt := r.1.createdAt, publishedOn := r.1.publishedOn)
    ensures !TypeResolves(w.db.types, p) && Types.Valid(w.db.types) ==> TypeNameOf(r.0.db.types, r.1) == Some(DefaultTypeName)
    ensures r.1.publishedOn == if PublishedForTheFirstTime(p, clean) then Some(now) else p.publishedOn
    ensures r.0.outbox == w.outbox + if PublishedForTheFirstTime(p, clean) then Announcement(r.0.db.types, r.1, env) else []
    ensures p.id.None? ==> r.1.id == Some(w.db.nextPostId) && r.0.db.posts == w.db.posts + [r.1]
    ensures StoreValid(w.db) ==> StoreValid(r.0.db)
  {
    var (types', a2) := SetDefaultType(w.db.types, p);
    var fire := PublishedForTheFirstTime(a2, clean);
    var a3 := if fire then a2.(publishedOn := Some(now)) else a2;
    var (db', a4) := Persist(w.db.(types := types'), a3, clean, now);
    var sent := if fire then Announcement(db'.types, a4, env) else [];
    (World(db', w.outbox + sent), a4)
  }

  /**
   The corrected pipeline: the first publication of a "blog" or "press" post
   is announced, whether or not its default type had to be created, and the
   stamp reaches storage with the row.
   */
  function SaveCorrected(w: World, rec: Record, env: Env, now: Timestamp): (r: SaveOutcome)
    ensures r.saved <==> Accepted(rec.attrs, env)
    ensures !r.saved ==> r.world == w
    ensures r.saved ==> r.rec.clean == r.rec.attrs && r.rec.attrs.id.Some? && r.rec.builtType.None?
    ensures r.saved && !TypeResolves(w.db.types, rec.attrs) && Types.Valid(w.db.types) ==>
              TypeNameOf(r.world.db.types, r.rec.attrs) == Some(DefaultTypeName)
    ensures r.rec.attrs.publishedOn ==
              if r.saved && PublishedForTheFirstTime(rec.attrs, rec.clean) then Some(now) else rec.attrs.publishedOn
    ensures !(r.saved && PublishedForTheFirstTime(rec.attrs, rec.clean)) ==> r.world.outbox == w.outbox
    ensures r.saved && PublishedForTheFirstTime(rec.attrs, rec.clean)
              && TypeNameOf(r.world.db.types, r.rec.attrs) == Some("blog") ==>
              r.world.outbox == w.outbox + Broadcast("New blog post - " + rec.attrs.title + " http://"
                                                     + env.hostname + env.blogArticlePath(r.rec.attrs.id.value))
    ensures r.saved && PublishedForTheFirstTime(rec.attrs, rec.clean)
              && TypeNameOf(r.world.db.types, r.rec.attrs) == Some("press") ==>
              r.world.outbox == w.outbox + Broadcast("New press release - " + rec.attrs.title + " http://"
                                                     + env.hostname + env.pressArticlePath(r.rec.attrs.id.value))
    ensures TypeNameOf(r.world.db.types, r.rec.attrs) !in {Some("blog"), Some("press")} ==> r.world.outbox == w.outbox
    ensures w.outbox <= r.world.outbox && |r.world.outbox| <= |w.outbox| + 2
    ensures r.saved && rec.attrs.id.None? ==>
              r.rec.attrs.id == Some(w.db.nextPostId) && r.world.db.posts == w.db.posts + [r.rec.attrs]
    ensures StoreValid(w.db) ==> StoreValid(r.world.db)
  {
    var a1 := SetBlogger(rec.attrs, env);
    var errs := Errors(a1);
    if |errs| > 0 then SaveOutcome(false, errs, w, Record(a1, rec.clean, rec.builtType))
    else
      assert PublishedForTheFirstTime(a1, rec.clean) == PublishedForTheFirstTime(rec.attrs, rec.clean);
      var (w', a2) := CommitCorrected(w, a1, rec.clean, env, now);
      SaveOutcome(true, [], w', Record(a2, a2, None))
  }

  /**
   Corrected: the first save of a new, published post without a type is
   announced as a blog post, also when the "blog" type is created by it.
   */
  lemma NewPostIsAnnounced(w: World, p: Post, env: Env, t0: Timestamp)
    requires StoreValid(w.db)
    requires p.id.None? && p.typeId.None? && p.isPublished && p.publishedOn.None?
    requires Accepted(p, env)
    ensures var o := SaveCorrected(w, Record(p, Fresh, None), env, t0);
            && o.saved
            && o.world.outbox == w.outbox + Broadcast("New blog post - " + p.title + " http://"
                                                      + env.hostname + env.blogArticlePath(w.db.nextPostId))
  {
    assert PublishedForTheFirstTime(p, Fresh);
  }

  /**
   Corrected: after the first save of a new, published post (announced when
   its type is "blog" or "press"), the post loaded back from storage carries
   the stamp, and unpublishing and publishing it again announces nothing.
   */
  lemma ReloadedPostStaysQuiet(w: World, p: Post, env: Env, t0: Timestamp, t1: Timestamp, t2: Timestamp)
    requires StoreValid(w.db)
    requires p.id.None? && p.isPublished && p.publishedOn.None?
    requires Accepted(p, env)
    ensures var o := SaveCorrected(w, Record(p, Fresh, None), env, t0);
            && o.saved
            && |o.world.outbox| ==
                 |w.outbox| + (if TypeNameOf(o.world.db.types, o.rec.attrs) in {Some("blog"), Some("press")} then 2 else 0)
            && var loaded := Load(o.world.db, o.rec.attrs.id.value);
               && loaded.Ok?
               && loaded.value.attrs.publishedOn == Some(t0)
               && var o1 := SaveCorrected(o.world, Assign(loaded.value, Unpublish), env, t1);
                  var o2 := SaveCorrected(o1.world, Assign(o1.rec, Republish), env, t2);
                  o2.world.outbox == o.world.outbox
  {
    var o := SaveCorrected(w, Record(p, Fresh, None), env, t0);
    assert PublishedForTheFirstTime(p, Fresh);
    LoadInserted(w.db, o.world.db, o.rec.attrs);
  }
}

=== FILE: posts.dfy ===
/**
 The blog post (`Blogit::Post`) and its save pipeline. The framework's save
 callbacks are written out as one ordered function over an explicit store:
 default the author, validate, default the type, write the row, then run the
 publish hook, which stamps `published_on` and announces the post.
 */
module Posts {
  import opened Results
  import opened Text
  import Types

  type Timestamp = int

  /** The polymorphic `blogger` reference: the (blogger_type, blogger_id) column pair. */
  datatype AuthorRef = AuthorRef(kind: string, id: nat)

  /** A loaded author: its class name and the zero-argument methods it responds to, with their values. */
  datatype Author = Author(className: string, methods: map<string, string>)

  /** The attributes of a post. A `nil` title or body is modelled as the empty string. */
  datatype Post = Post(
    id: Option<nat>,
    title: string,
    body: string,
    typeId: Option<nat>,
    blogger: Option<AuthorRef>,
    isPublished: bool,
    publishedOn: Option<Timestamp>,
    createdAt: Option<Timestamp>,
    tags: set<string>)

  /** The column defaults of a freshly built post. */
  const Fresh := Post(None, "", "", None, None, false, None, None, {})

  /**
   An in-memory record: its current attributes, the snapshot that dirty
   tracking compares them with (the values as last loaded or saved), and the
   id of the type this object created through `find_or_create_by_name(:blog)`
   while its `type` association still caches that object.
   */
  datatype Record = Record(attrs: Post, clean: Post, builtType: Option<nat>)

  /**
   The `type` association holds the object `find_or_create_by_name(:blog)`
   built. The framework versions that provide `attr_accessible` and the
   dynamic `find_or_create_by_*` finders do not cast a string attribute on
   write, so that object's `name` is the Symbol `:blog`, equal to neither
   "blog" nor "press". The cache serves the association while `type_id`
   still names that type.
   */
  predicate SymbolNamed(p: Post, builtType: Option<nat>) {
    builtType.Some? && p.typeId == builtType
  }

  /** What the pipeline consults outside the posts table. */
  datatype Env = Env(
    authors: map<AuthorRef, Author>,  // the authors the polymorphic association can load
    admin: Option<AuthorRef>,         // the result of looking up the user named "admin"
    hostname: string,                 // the host name of the site
    blogArticlePath: nat -> string,   // route helper for a blog post
    pressArticlePath: nat -> string)  // route helper for a press release

  /** The two broadcast channels the publish hook posts to. */
  datatype Channel = Twitter | Facebook

  datatype Message = Message(channel: Channel, text: string)

  /** Storage: the type registry, the posts table in storage order, and the id the next insert receives. */
  datatype Db = Db(types: Types.Registry, posts: seq<Post>, nextPostId: nat)

  /** Storage plus the log of every message sent to the broadcast channels. */
  datatype World = World(db: Db, outbox: seq<Message>)

  /** The validation failures, in the order the validators run. */
  datatype FieldError = TitleBlank | TitleTooShort | TitleTooLong | BodyBlank | BodyTooShort | BloggerIdBlank

  /** What `save` leaves behind: whether it succeeded, the errors, the world and the in-memory record. */
  datatype SaveOutcome = SaveOutcome(saved: bool, errors: seq<FieldError>, world: World, rec: Record)

  datatype NotFound = RecordNotFound(id: nat)

  datatype ConfigurationError = ConfigurationError(message: string)

  const TitleMin := 1
  const TitleMax := 72
  const BodyMin := 10
  const DefaultTypeName := "blog"

  /** What storage keeps true: a valid type table, and every row has a unique id and a creation time. */
  predicate StoreValid(db: Db) {
    && Types.Valid(db.types)
    && (forall i :: 0 <= i < |db.posts| ==>
          db.posts[i].id.Some? && db.posts[i].id.value < db.nextPostId && db.posts[i].createdAt.Some?)
    && (forall i, j :: 0 <= i < j < |db.posts| ==> db.posts[i].id != db.posts[j].id)
  }

  // ---------------------------------------------------------------- validation

  /** The title and body validations. */
  predicate TextValid(p: Post) {
    && !Blank(p.title) && TitleMin <= |p.title| <= TitleMax
    && !Blank(p.body) && |p.body| >= BodyMin
  }

  /** The errors of the title's presence and length validations. */
  function TitleErrors(p: Post): (errs: seq<FieldError>)
    ensures |errs| == 0 <==> !Blank(p.title) && TitleMin <= |p.title| <= TitleMax
    ensures TitleBlank in errs <==> Blank(p.title)
    ensures TitleTooShort in errs <==> |p.title| < TitleMin
    ensures TitleTooLong in errs <==> |p.title| > TitleMax
    ensures forall e :: e in errs ==> e in {TitleBlank, TitleTooShort, TitleTooLong}
  {
    (if Blank(p.title) then [TitleBlank] else [])
    + (if |p.title| < TitleMin then [TitleTooShort] else if |p.title| > TitleMax then [TitleTooLong] else [])
  }

  /** The errors of the body's presence and length validations. */
  function BodyErrors(p: Post): (errs: seq<FieldError>)
    ensures |errs| == 0 <==> !Blank(p.body) && |p.body| >= BodyMin
    ensures BodyBlank in errs <==> Blank(p.body)
    ensures BodyTooShort in errs <==> |p.body| < BodyMin
    ensures forall e :: e in errs ==> e in {BodyBlank, BodyTooShort}
  {
    (if Blank(p.body) then [BodyBlank] else []) + (if |p.body| < BodyMin then [BodyTooShort] else [])
  }

  /** The validation errors of a post: presence and length of title and body, presence of `blogger_id`. */
  function Errors(p: Post): (errs: seq<FieldError>)
    ensures |errs| == 0 <==> TextValid(p) && p.blogger.Some?
    ensures TitleBlank in errs <==> Blank(p.title)
    ensures TitleTooShort in errs <==> |p.title| < TitleMin
    ensures TitleTooLong in errs <==> |p.title| > TitleMax
    ensures BodyBlank in errs <==> Blank(p.body)
    ensures BodyTooShort in errs <==> |p.body| < BodyMin
    ensures BloggerIdBlank in errs <==> p.blogger.None?
    ensures forall e :: e in errs <==> e in TitleErrors(p) || e in BodyErrors(p) || (e == BloggerIdBlank && p.blogger.None?)
  {
    TitleErrors(p) + BodyErrors(p) + (if p.blogger.None? then [BloggerIdBlank] else [])
  }

  // ---------------------------------------------------------------- author

  /** The `blogger` association loads nothing: there is no reference, or it names no known author. */
  predicate BloggerBlank(p: Post, env: Env) {
    p.blogger.None? || p.blogger.value !in env.authors
  }

  /** `set_blogger`: a blank author is replaced by the admin lookup's result, which may be nothing. */
  function SetBlogger(p: Post, env: Env): (r: Post)
    ensures r == p.(blogger := r.blogger)
    ensures !BloggerBlank(p, env) ==> r.blogger == p.blogger
    ensures BloggerBlank(p, env) ==> r.blogger == env.admin
    ensures r.blogger.Some? <==> !BloggerBlank(p, env) || env.admin.Some?
  {
    if BloggerBlank(p, env) then p.(blogger := env.admin) else p
  }

  // ---------------------------------------------------------------- type

  /** The `type` association loads a stored type. */
  predicate TypeResolves(reg: Types.Registry, p: Post) {
    p.typeId.Some? && Types.Lookup(reg, p.typeId.value).Some?
  }

  /** The name of the post's type, when the association loads one. */
  function TypeNameOf(reg: Types.Registry, p: Post): Option<string> {
    if TypeResolves(reg, p) then Some(Types.Lookup(reg, p.typeId.value).value.name) else None
  }

  /** `set_default_type`: a blank type becomes the "blog" type, found or created. */
  function SetDefaultType(reg: Types.Registry, p: Post): (r: (Types.Registry, Post))
    ensures TypeResolves(r.0, r.1)
    ensures r.1 == p.(typeId := r.1.typeId)
    ensures TypeResolves(reg, p) ==> r == (reg, p)
    ensures !TypeResolves(reg, p) ==>
              && |reg.types| <= |r.0.types| <= |reg.types| + 1
              && r.0.types[..|reg.types|] == reg.types
    ensures !TypeResolves(reg, p) && Types.Valid(reg) ==> TypeNameOf(r.0, r.1) == Some(DefaultTypeName)
    ensures !TypeResolves(reg, p) && Types.Taken(reg, DefaultTypeName) ==> r.0 == reg
    ensures !TypeResolves(reg, p) && !Types.Taken(reg, DefaultTypeName) ==>
              |r.0.types| == |reg.types| + 1 && r.1.typeId == Some(r.0.types[|reg.types|].id)
    ensures Types.Valid(reg) ==> Types.Valid(r.0)
  {
    if TypeResolves(reg, p) then (reg, p)
    else
      assert !IsSpace(DefaultTypeName[0]);
      match Types.FindOrCreate(reg, DefaultTypeName)
      case Ok((reg', t)) =>
        assert Types.Valid(reg) ==> Types.Lookup(reg', t.id) == Some(t) by {
          if Types.Valid(reg) {
            Types.LookupStored(reg', t);
          }
        }
        (reg', p.(typeId := Some(t.id)))
      case Err(_) =>
        assert false;
        (reg, p)
  }

  // ---------------------------------------------------------------- persistence

  function IndexOfId(rows: seq<Post>, id: nat): (r: Option<nat>)
    ensures r.Some? ==> r.value < |rows| && rows[r.value].id == Some(id)
    ensures r.None? ==> forall i :: 0 <= i < |rows| ==> rows[i].id != Some(id)
  {
    if |rows| == 0 then None
    else if rows[|rows| - 1].id == Some(id) then Some(|rows| - 1)
    else IndexOfId(rows[..|rows| - 1], id)
  }

  /** A partial update: the stored row takes exactly the attributes that differ from the clean snapshot. */
  function WriteChanged(row: Post, cur: Post, clean: Post): (r: Post)
    ensures PartiallyUpdated(r, row, cur, clean)
  {
    row.(
      title := if cur.title != clean.title then cur.title else row.title,
      body := if cur.body != clean.body then cur.body else row.body,
      typeId := if cur.typeId != clean.typeId then cur.typeId else row.typeId,
      blogger := if cur.blogger != clean.blogger then cur.blogger else row.blogger,
      isPublished := if cur.isPublished != clean.isPublished then cur.isPublished else row.isPublished,
      publishedOn := if cur.publishedOn != clean.publishedOn then cur.publishedOn else row.publishedOn,
      tags := if cur.tags != clean.tags then cur.tags else row.tags)
  }

  /** Every attribute the record changed relative to its snapshot holds the record's value in `row`. */
  predicate ChangesWritten(row: Post, cur: Post, clean: Post) {
    && (cur.title != clean.title ==> row.title == cur.title)
    && (cur.body != clean.body ==> row.body == cur.body)
    && (cur.typeId != clean.typeId ==> row.typeId == cur.typeId)
    && (cur.blogger != clean.blogger ==> row.blogger == cur.blogger)
    && (cur.isPublished != clean.isPublished ==> row.isPublished == cur.isPublished)
    && (cur.publishedOn != clean.publishedOn ==> row.publishedOn == cur.publishedOn)
    && (cur.tags != clean.tags ==> row.tags == cur.tags)
  }

  /** Every attribute the record left as in its snapshot keeps, in `row'`, the value stored in `row`. */
  predicate UnchangedKept(row': Post, row: Post, cur: Post, clean: Post) {
    && (cur.title == clean.title ==> row'.title == row.title)
    && (cur.body == clean.body ==> row'.body == row.body)
    && (cur.typeId == clean.typeId ==> row'.typeId == row.typeId)
    && (cur.blogger == clean.blogger ==> row'.blogger == row.blogger)
    && (cur.isPublished == clean.isPublished ==> row'.isPublished == row.isPublished)
    && (cur.publishedOn == clean.publishedOn ==> row'.publishedOn == row.publishedOn)
    && (cur.tags == clean.tags ==> row'.tags == row.tags)
  }

  /** `row'` is the stored `row` after a partial update: changed attributes written, the rest, id and creation time kept. */
  predicate PartiallyUpdated(row': Post, row: Post, cur: Post, clean: Post) {
    && ChangesWritten(row', cur, clean)
    && UnchangedKept(row', row, cur, clean)
    && row'.id == row.id && row'.createdAt == row.createdAt
  }

  /**
   The effect of one row write on the stored posts: `row` is appended when
   the record is new; otherwise no other post changes and, in a valid store,
   the record's row is partially updated. Every stored stamp is the
   record's or the one stored before.
   */
  predicate RowWritten(db: Db, db': Db, row: Post, isNew: bool, clean: Post) {
    && (isNew ==> db'.posts == db.posts + [row])
    && (!isNew ==>
          && |db'.posts| == |db.posts|
          && (forall i :: 0 <= i < |db.posts| && db.posts[i].id != row.id ==> db'.posts[i] == db.posts[i])
          && (StoreValid(db) ==>
                forall i :: 0 <= i < |db.posts| && db.posts[i].id == row.id ==>
                  PartiallyUpdated(db'.posts[i], db.posts[i], row, clean)))
    && forall i :: 0 <= i < |db'.posts| ==>
         || db'.posts[i].publishedOn == row.publishedOn
         || (i < |db.posts| && db'.posts[i].publishedOn == db.posts[i].publishedOn)
  }

  /** A row equal to the snapshot, partially updated with a record of the same identity, becomes the record. */
  lemma SnapshotRowBecomesRecord(row': Post, row: Post, cur: Post, clean: Post)
    requires PartiallyUpdated(row', row, cur, clean) && row == clean
    requires cur.id == clean.id && cur.createdAt == clean.createdAt
    ensures row' == cur
  {
  }

  /** The insert of a new record: the next id, and the creation time unless one is already set. */
  function InsertRow(db: Db, cur: Post, now: Timestamp): (r: (Db, Post))
    requires cur.id.None?
    ensures r.1 == cur.(id := Some(db.nextPostId), createdAt := r.1.createdAt) && r.1.createdAt.Some?
    ensures r.0 == db.(posts := db.posts + [r.1], nextPostId := db.nextPostId + 1)
    ensures StoreValid(db) ==> StoreValid(r.0)
  {
    var row := cur.(id := Some(db.nextPostId),
                    createdAt := if cur.createdAt.None? then Some(now) else cur.createdAt);
    (db.(posts := db.posts + [row], nextPostId := db.nextPostId + 1), row)
  }

  /** The update of a stored record: a partial write of its row, or nothing if the row is gone. */
  function UpdateRow(db: Db, cur: Post, clean: Post): (r: Db)
    requires cur.id.Some?
    ensures r.types == db.types && r.nextPostId == db.nextPostId
    ensures RowWritten(db, r, cur, false, clean)
    ensures forall i :: 0 <= i < |db.posts| ==>
              r.posts[i].id == db.posts[i].id && r.posts[i].createdAt == db.posts[i].createdAt
    ensures StoreValid(db) ==> StoreValid(r)
  {
    match IndexOfId(db.posts, cur.id.value)
    case Some(i) => db.(posts := db.posts[i := WriteChanged(db.posts[i], cur, clean)])
    case None => db
  }

  /** The row write: an insert for a new record, a partial update for a stored one. */
  function Persist(db: Db, cur: Post, clean: Post, now: Timestamp): (r: (Db, Post))
    ensures r.0.types == db.types
    ensures r.1.id.Some?
    ensures r.1 == cur.(id := r.1.id, createdAt := r.1.createdAt)
    ensures cur.id.Some? ==> r.1 == cur
    ensures cur.id.None? ==> r.1.id == Some(db.nextPostId)
    ensures RowWritten(db, r.0, r.1, cur.id.None?, clean)
    ensures StoreValid(db) ==> StoreValid(r.0)
  {
    if cur.id.None? then InsertRow(db, cur, now) else (UpdateRow(db, cur, clean), cur)
  }

  // ---------------------------------------------------------------- publishing

  /** `published_for_the_first_time?`: the flag changed in this save, is now set, and no stamp exists yet. */
  predicate PublishedForTheFirstTime(cur: Post, clean: Post) {
    cur.isPublished != clean.isPublished && cur.isPublished && cur.publishedOn.None?
  }

  /** The announcement for a post of the named type; only "blog" and "press" posts are announced. */
  function AnnouncementText(typeName: string, title: string, id: nat, env: Env): Option<string> {
    if typeName == "blog" then
      Some("New blog post - " + title + " http://" + env.hostname + env.blogArticlePath(id))
    else if typeName == "press" then
      Some("New press release - " + title + " http://" + env.hostname + env.pressArticlePath(id))
    else None
  }

  /** One announcement, sent to Twitter and then to Facebook. */
  function Broadcast(text: string): seq<Message> {
    [Message(Twitter, text), Message(Facebook, text)]
  }

  /** The messages announcing a stored post: one broadcast for a "blog" or "press" post, none otherwise. */
  function Announcement(reg: Types.Registry, p: Post, env: Env): (sent: seq<Message>)
    requires p.id.Some? && TypeResolves(reg, p)
    ensures TypeNameOf(reg, p) == Some("blog") ==>
              sent == Broadcast("New blog post - " + p.title + " http://"
                                + env.hostname + env.blogArticlePath(p.id.value))
    ensures TypeNameOf(reg, p) == Some("press") ==>
              sent == Broadcast("New press release - " + p.title + " http://"
                                + env.hostname + env.pressArticlePath(p.id.value))
    ensures TypeNameOf(reg, p) !in {Some("blog"), Some("press")} ==> sent == []
  {
    match AnnouncementText(TypeNameOf(reg, p).value, p.title, p.id.value, env)
    case Some(text) => Broadcast(text)
    case None => []
  }

  /**
   `publish` (after save): on the first publication the in-memory record is
   stamped with `now` and the post is announced. A type whose in-memory name
   is the Symbol `:blog` (`symbolNamed`) matches neither name test, so such a
   post is stamped and nothing is sent.
   */
  function Publish(reg: Types.Registry, p: Post, clean: Post, symbolNamed: bool, env: Env, now: Timestamp,
                   outbox: seq<Message>): (r: (Post, seq<Message>))
    requires p.id.Some? && TypeResolves(reg, p)
    ensures r.0 == p.(publishedOn := r.0.publishedOn)
    ensures r.0.publishedOn == if PublishedForTheFirstTime(p, clean) then Some(now) else p.publishedOn
    ensures r.1 == outbox + if PublishedForTheFirstTime(p, clean) && !symbolNamed then Announcement(reg, p, env) else []
  {
    if PublishedForTheFirstTime(p, clean) then
      (p.(publishedOn := Some(now)), outbox + if symbolNamed then [] else Announcement(reg, p, env))
    else (p, outbox)
  }

  /**
   The guard needs a snapshot that was unpublished, and once the hook has
   stamped the record it cannot hold again, whatever the later snapshot.
   */
  lemma GuardIsOneShot(cur: Post, clean: Post, later: Post, now: Timestamp)
    ensures PublishedForTheFirstTime(cur, clean) ==> cur.isPublished && !clean.isPublished
    ensures !PublishedForTheFirstTime(cur.(publishedOn := Some(now)), later)
  {
  }

  // ---------------------------------------------------------------- the pipeline

  /** The post passes validation once its author has been defaulted. */
  predicate Accepted(p: Post, env: Env) {
    TextValid(p) && (!BloggerBlank(p, env) || env.admin.Some?)
  }

  /**
   The before-save type default and the row write. The third part of the
   result is the record's type cache once `set_default_type` has run: the
   type it creates is cached under its Symbol name, a type it finds replaces
   the cache, and a type that already loads keeps it.
   */
  function DefaultAndWrite(db: Db, p: Post, clean: Post, built: Option<nat>, now: Timestamp)
    : (r: (Db, Post, Option<nat>))
    ensures TypeResolves(r.0.types, r.1) && r.1.id.Some?
    ensures r.1 == p.(typeId := r.1.typeId, id := r.1.id, createdAt := r.1.createdAt)
    ensures TypeResolves(db.types, p) ==> r.1.typeId == p.typeId && r.0.types == db.types
    ensures !TypeResolves(db.types, p) && Types.Valid(db.types) ==> TypeNameOf(r.0.types, r.1) == Some(DefaultTypeName)
    ensures !TypeResolves(db.types, p) && !Types.Taken(db.types, DefaultTypeName) ==> SymbolNamed(r.1, r.2)
    ensures !TypeResolves(db.types, p) && Types.Taken(db.types, DefaultTypeName) ==> !SymbolNamed(r.1, r.2)
    ensures TypeResolves(db.types, p) ==> (SymbolNamed(r.1, r.2) <==> SymbolNamed(p, built))
    ensures p.id.Some? ==> r.1.id == p.id
    ensures StoreValid(db) ==> StoreValid(r.0)
    ensures p.id.None? ==> r.1.id == Some(db.nextPostId)
    ensures RowWritten(db, r.0, r.1, p.id.None?, clean)
  {
    var (types', a2) := SetDefaultType(db.types, p);
    var built' :=
      if !TypeResolves(db.types, p) then (if Types.Taken(db.types, DefaultTypeName) then None else a2.typeId)
      else if SymbolNamed(p, built) then built
      else None;
    var (db', a3) := Persist(db.(types := types'), a2, clean, now);
    (db', a3, built')
  }

  /**
   The stages after validation passed: the before-save type default, the row
   write, and the after-save publish hook. The hook stamps the in-memory post
   after the row is written. `built` is the record's cached Symbol-named type,
   if any; the result's third part is the cache after this save.
   */
  function Commit(w: World, p: Post, clean: Post, built: Option<nat>, env: Env, now: Timestamp)
    : (r: (World, Post, Option<nat>))
    ensures TypeResolves(r.0.db.types, r.1) && r.1.id.Some?
    ensures r.1 == p.(typeId := r.1.typeId, id := r.1.id, createdAt := r.1.createdAt, publishedOn := r.1.publishedOn)
    ensures TypeResolves(w.db.types, p) ==> r.1.typeId == p.typeId && r.0.db.types == w.db.types
    ensures !TypeResolves(w.db.types, p) && Types.Valid(w.db.types) ==> TypeNameOf(r.0.db.types, r.1) == Some(DefaultTypeName)
    // the type `set_default_type` creates is cached under its Symbol name
    ensures !TypeResolves(w.db.types, p) && !Types.Taken(w.db.types, DefaultTypeName) ==> SymbolNamed(r.1, r.2)
    ensures !TypeResolves(w.db.types, p) && Types.Taken(w.db.types, DefaultTypeName) ==> !SymbolNamed(r.1, r.2)
    ensures TypeResolves(w.db.types, p) ==> (SymbolNamed(r.1, r.2) <==> SymbolNamed(p, built))
    ensures p.id.Some? ==> r.1.id == p.id
    ensures r.1.publishedOn == if PublishedForTheFirstTime(p, clean) then Some(now) else p.publishedOn
    ensures r.0.outbox == w.outbox + if PublishedForTheFirstTime(p, clean) && !SymbolNamed(r.1, r.2)
                                     then Announcement(r.0.db.types, r.1, env) else []
    ensures StoreValid(w.db) ==> StoreValid(r.0.db)
    // the row is written before the stamp is assigned
    ensures p.id.None? ==> r.1.id == Some(w.db.nextPostId)
    ensures RowWritten(w.db, r.0.db, r.1.(publishedOn := p.publishedOn), p.id.None?, clean)
  {
    var (db', a3, built') := DefaultAndWrite(w.db, p, clean, built, now);
    var (a4, outbox') := Publish(db'.types, a3, clean, SymbolNamed(a3, built'), env, now, w.outbox);
    (World(db', outbox'), a4, built')
  }

  /**
   `save`: before-validation author default, validation, before-save type
   default, the row write, and the after-save publish hook, in that order.
   The publish hook stamps the in-memory record after the row is written, so
   the stored row never carries the stamp this save assigns.
   */
  function Save(w: World, rec: Record, env: Env, now: Timestamp): (r: SaveOutcome)
    // validation runs on the post with its author defaulted
    ensures r.saved <==> Accepted(rec.attrs, env)
    ensures r.saved <==> |r.errors| == 0
    ensures r.errors == Errors(r.rec.attrs)
    ensures !BloggerBlank(rec.attrs, env) ==> r.rec.attrs.blogger == rec.attrs.blogger
    ensures BloggerBlank(rec.attrs, env) ==> r.rec.attrs.blogger == env.admin
    // a rejected save writes nothing, defaults no type and publishes nothing
    ensures !r.saved ==>
              r.world == w && r.rec == Record(rec.attrs.(blogger := r.rec.attrs.blogger), rec.clean, rec.builtType)
    // type defaulting
    ensures r.saved && TypeResolves(w.db.types, rec.attrs) ==>
              r.rec.attrs.typeId == rec.attrs.typeId && r.world.db.types == w.db.types
    ensures r.saved && !TypeResolves(w.db.types, rec.attrs) && Types.Valid(w.db.types) ==>
              TypeNameOf(r.world.db.types, r.rec.attrs) == Some(DefaultTypeName)
    ensures r.saved && !TypeResolves(w.db.types, rec.attrs) && !Types.Taken(w.db.types, DefaultTypeName) ==>
              SymbolNamed(r.rec.attrs, r.rec.builtType)
    ensures r.saved && !TypeResolves(w.db.types, rec.attrs) && Types.Taken(w.db.types, DefaultTypeName) ==>
              !SymbolNamed(r.rec.attrs, r.rec.builtType)
    ensures r.saved && TypeResolves(w.db.types, rec.attrs) ==>
              (SymbolNamed(r.rec.attrs, r.rec.builtType) <==> SymbolNamed(rec.attrs, rec.builtType))
    ensures r.saved ==> TypeResolves(r.world.db.types, r.rec.attrs) && r.rec.attrs.id.Some?
    ensures r.saved ==> r.rec.clean == r.rec.attrs
    ensures r.rec.attrs == rec.attrs.(blogger := r.rec.attrs.blogger, typeId := r.rec.attrs.typeId,
                                      id := r.rec.attrs.id, createdAt := r.rec.attrs.createdAt,
                                      publishedOn := r.rec.attrs.publishedOn)
    // the publish stamp, on the in-memory record
    ensures r.rec.attrs.publishedOn ==
              if r.saved && PublishedForTheFirstTime(rec.attrs, rec.clean) then Some(now) else rec.attrs.publishedOn
    // the announcement
    ensures w.outbox <= r.world.outbox
    ensures !(r.saved && PublishedForTheFirstTime(rec.attrs, rec.clean)) ==> r.world.outbox == w.outbox
    ensures r.saved && PublishedForTheFirstTime(rec.attrs, rec.clean) && !SymbolNamed(r.rec.attrs, r.rec.builtType)
              && TypeNameOf(r.world.db.types, r.rec.attrs) == Some("blog") ==>
              r.world.outbox == w.outbox + Broadcast("New blog post - " + rec.attrs.title + " http://"
                                                     + env.hostname + env.blogArticlePath(r.rec.attrs.id.value))
    ensures r.saved && PublishedForTheFirstTime(rec.attrs, rec.clean) && !SymbolNamed(r.rec.attrs, r.rec.builtType)
              && TypeNameOf(r.world.db.types, r.rec.attrs) == Some("press") ==>
              r.world.outbox == w.outbox + Broadcast("New press release - " + rec.attrs.title + " http://"
                                                     + env.hostname + env.pressArticlePath(r.rec.attrs.id.value))
    ensures TypeNameOf(r.world.db.types, r.rec.attrs) !in {Some("blog"), Some("press")} ==> r.world.outbox == w.outbox
    ensures SymbolNamed(r.rec.attrs, r.rec.builtType) ==> r.world.outbox == w.outbox
    // storage
    ensures StoreValid(w.db) ==> StoreValid(r.world.db)
    ensures r.saved && rec.attrs.id.None? ==> r.rec.attrs.id == Some(w.db.nextPostId)
    ensures r.saved ==> RowWritten(w.db, r.world.db, r.rec.attrs.(publishedOn := rec.attrs.publishedOn),
                                   rec.attrs.id.None?, rec.clean)
  {
    var a1 := SetBlogger(rec.attrs, env);
    var errs := Errors(a1);
    if |errs| > 0 then SaveOutcome(false, errs, w, Record(a1, rec.clean, rec.builtType))
    else
      // the author default touches nothing the later stages read
      assert a1.typeId == rec.attrs.typeId && a1.id == rec.attrs.id && a1.createdAt == rec.attrs.createdAt;
      assert PublishedForTheFirstTime(a1, rec.clean) == PublishedForTheFirstTime(rec.attrs, rec.clean);
      var (w', a2, built') := Commit(w, a1, rec.clean, rec.builtType, env, now);
      SaveOutcome(true, [], w', Record(a2, a2, built'))
  }

  // ---------------------------------------------------------------- entry points

  /** The mass-assignable attributes (`attr_accessible`); an absent field is left as it is. */
  datatype Patch = Patch(
    title: Option<string>,
    body: Option<string>,
    tags: Option<set<string>>,
    blogger: Option<Option<AuthorRef>>,
    typeId: Option<Option<nat>>,
    isPublished: Option<bool>)

  function Pick<T>(given: Option<T>, current: T): T {
    if given.Some? then given.value else current
  }

  /**
   Mass assignment: each given accessible attribute takes the given value and
   every other attribute, the snapshot and the type cache stay as they were.
   */
  function Assign(rec: Record, patch: Patch): (r: Record)
    ensures r.clean == rec.clean && r.builtType == rec.builtType
    ensures r.attrs.id == rec.attrs.id
    ensures r.attrs.publishedOn == rec.attrs.publishedOn
    ensures r.attrs.createdAt == rec.attrs.createdAt
    ensures r.attrs.title == if patch.title.Some? then patch.title.value else rec.attrs.title
    ensures r.attrs.body == if patch.body.Some? then patch.body.value else rec.attrs.body
    ensures r.attrs.tags == if patch.tags.Some? then patch.tags.value else rec.attrs.tags
    ensures r.attrs.blogger == if patch.blogger.Some? then patch.blogger.value else rec.attrs.blogger
    ensures r.attrs.typeId == if patch.typeId.Some? then patch.typeId.value else rec.attrs.typeId
    ensures r.attrs.isPublished == if patch.isPublished.Some? then patch.isPublished.value else rec.attrs.isPublished
  {
    var p := rec.attrs;
    Record(p.(title := Pick(patch.title, p.title),
              body := Pick(patch.body, p.body),
              tags := Pick(patch.tags, p.tags),
              blogger := Pick(patch.blogger, p.blogger),
              typeId := Pick(patch.typeId, p.typeId),
              isPublished := Pick(patch.isPublished, p.isPublished)),
           rec.clean, rec.builtType)
  }

  /**
   `Post.new(params)`: a new record, without id or stamps, whose snapshot holds
   the column defaults; its first save is a first publication exactly when the
   parameters set `is_published`.
   */
  function Build(patch: Patch): (r: Record)
    ensures r.clean == Fresh && r.builtType.None?
    ensures r.attrs.id.None? && r.attrs.publishedOn.None? && r.attrs.createdAt.None?
    ensures r.attrs.title == if patch.title.Some? then patch.title.value else ""
    ensures r.attrs.body == if patch.body.Some? then patch.body.value else ""
    ensures PublishedForTheFirstTime(r.attrs, r.clean) <==> patch.isPublished == Some(true)
  {
    Assign(Record(Fresh, Fresh, None), patch)
  }

  /**
   `update_attributes(params)`: mass assignment followed by `save`. A stored
   record keeps its id and never adds a row; a successful update holds the
   given title, body and flag.
   */
  function Update(w: World, rec: Record, patch: Patch, env: Env, now: Timestamp): (r: SaveOutcome)
    ensures !r.saved ==> r.world == w
    ensures r.errors == Errors(r.rec.attrs)
    ensures r.saved && rec.attrs.id.Some? ==> r.rec.attrs.id == rec.attrs.id && |r.world.db.posts| == |w.db.posts|
    ensures r.saved && patch.title.Some? ==> r.rec.attrs.title == patch.title.value
    ensures r.saved && patch.body.Some? ==> r.rec.attrs.body == patch.body.value
    ensures patch.isPublished.Some? ==> r.rec.attrs.isPublished == patch.isPublished.value
  {
    Save(w, Assign(rec, patch), env, now)
  }

  /** `Post.find(id)`: the stored row as a clean record. */
  function Load(db: Db, id: nat): (r: Result<Record, NotFound>)
    ensures r.Ok? <==> exists i :: 0 <= i < |db.posts| && db.posts[i].id == Some(id)
    ensures r.Err? ==> r.error == RecordNotFound(id)
    ensures r.Ok? ==> r.value.attrs == r.value.clean && r.value.attrs in db.posts && r.value.attrs.id == Some(id)
    ensures r.Ok? ==> r.value.builtType.None?
  {
    match IndexOfId(db.posts, id)
    case Some(i) => Ok(Record(db.posts[i], db.posts[i], None))
    case None => Err(RecordNotFound(id))
  }

  // ---------------------------------------------------------------- accessors

  /**
   `to_param`: the id, a dash, then the title run through `parameterize`
   (a framework helper, taken here as a parameter). Reading it back with
   `to_i`, as `Post.find` does with a URL segment, gives the id.
   */
  function ToParam(p: Post, parameterize: string -> string): (s: string)
    ensures p.id.Some? ==> ToI(s) == p.id.value
    ensures p.id.None? ==> s == "-" + parameterize(p.title)
    ensures |s| > |parameterize(p.title)|
    ensures s[|s| - |parameterize(p.title)|..] == parameterize(p.title)
    ensures s[|s| - |parameterize(p.title)| - 1] == '-'
    ensures p.id.Some? ==> |s| - |parameterize(p.title)| - 1 >= 1 && AllDigits(s[..|s| - |parameterize(p.title)| - 1])
    // the id is written without leading zeros
    ensures p.id.Some? && s[0] == '0' ==> s[1] == '-'
  {
    var slug := parameterize(p.title);
    var idText := if p.id.Some? then Decimal(p.id.value) else "";
    var s := idText + "-" + slug;
    assert p.id.Some? ==> ToI(s) == p.id.value by {
      if p.id.Some? {
        assert s == Decimal(p.id.value) + ("-" + slug);
        ToIRoundTrip(p.id.value, "-" + slug);
      }
    }
    assert s[|s| - |slug|..] == slug;
    s
  }

  /**
   `blogger_display_name`, `accessor` being the configured display-name
   method: an error when the author cannot answer it, the empty string when
   there is no author, otherwise the author's answer.
   */
  function BloggerDisplayName(p: Post, env: Env, accessor: string): (r: Result<string, ConfigurationError>)
    ensures r.Err? <==> !BloggerBlank(p, env) && accessor !in env.authors[p.blogger.value].methods
    ensures r.Err? ==> r.error.message == env.authors[p.blogger.value].className + "#" + accessor + " is not defined"
    ensures BloggerBlank(p, env) ==> r == Ok("")
    ensures !BloggerBlank(p, env) && r.Ok? ==> r.value == env.authors[p.blogger.value].methods[accessor]
  {
    if !BloggerBlank(p, env) && accessor !in env.authors[p.blogger.value].methods then
      Err(ConfigurationError(env.authors[p.blogger.value].className + "#" + accessor + " is not defined"))
    else if BloggerBlank(p, env) then
      Ok("")
    else
      Ok(env.authors[p.blogger.value].methods[accessor])
  }
}

=== FILE: queries.dfy ===
/**
 The listing scopes of `Blogit::Post`: the index order (newest first), its
 1-based pages, and the same pages restricted to a type name and a tag.
 The SQL behind the scopes applies every `where` before ordering and paging,
 so a filtered page is a window of the filtered, ordered table.
 */
module Queries {
  import opened Results
  import opened Seqs
  import opened Posts

  /** The creation time of a stored row (every stored row has one). */
  function Created(p: Post): int {
    if p.createdAt.Some? then p.createdAt.value else 0
  }

  /** Sort key for `order("created_at DESC")`. */
  function NewestKey(p: Post): int {
    -Created(p)
  }

  predicate NewestFirst(s: seq<Post>) {
    forall i, j :: 0 <= i < j < |s| ==> Created(s[i]) >= Created(s[j])
  }

  /** The whole posts table in index order: newest first, every stored row exactly once. */
  function Ordered(db: Db): (r: seq<Post>)
    requires StoreValid(db)
    ensures multiset(r) == multiset(db.posts)
    ensures |r| == |db.posts|
    ensures forall p :: p in r <==> p in db.posts
    ensures NewestFirst(r)
  {
    var r := SortBy(db.posts, NewestKey);
    assert |multiset(r)| == |multiset(db.posts)|;
    SameMembers(r, db.posts);
    r
  }

  /** `published`: the rows whose flag is set. */
  function Published(db: Db): (r: seq<Post>)
    ensures forall i :: 0 <= i < |r| ==> r[i].isPublished
    ensures forall p :: p in db.posts && p.isPublished ==> p in r
    ensures Subseq(r, db.posts)
  {
    Filter(db.posts, (p: Post) => p.isPublished)
  }

  /** `for_index(page_no)`: page `pageNo` of the index order, `per` posts per page. */
  function ForIndex(db: Db, pageNo: int, per: nat): (r: seq<Post>)
    requires StoreValid(db)
    ensures |r| <= per
    ensures NewestFirst(r)
    ensures Subseq(r, Ordered(db))
    ensures |r| > 0 ==> PageOffset(pageNo, per) + |r| <= |Ordered(db)|
    ensures forall k :: 0 <= k < |r| ==> r[k] == Ordered(db)[PageOffset(pageNo, per) + k]
    ensures PageOffset(pageNo, per) >= |db.posts| ==> |r| == 0
    ensures PageOffset(pageNo, per) < |db.posts| ==> |r| == Min(per, |db.posts| - PageOffset(pageNo, per))
  {
    var all := Ordered(db);
    PageIsSubseq(all, pageNo, per);
    SubseqKeepsSorted(Page(all, pageNo, per), all, NewestKey);
    Page(all, pageNo, per)
  }

  /** The post's type is the one named `name`. */
  predicate HasTypeName(db: Db, name: string, p: Post) {
    TypeNameOf(db.types, p) == Some(name)
  }

  /** The index order restricted to the posts of the named type (`joins(:type).where("name = ?")`). */
  function OfType(db: Db, name: string): (r: seq<Post>)
    requires StoreValid(db)
    ensures forall i :: 0 <= i < |r| ==> HasTypeName(db, name, r[i])
    ensures forall p :: p in db.posts && HasTypeName(db, name, p) ==> p in r
    ensures Subseq(r, Ordered(db))
    ensures NewestFirst(r)
  {
    var r := Filter(Ordered(db), (p: Post) => HasTypeName(db, name, p));
    SubseqKeepsSorted(r, Ordered(db), NewestKey);
    r
  }

  /** `paginated_by_type(type, page_no)`: page `pageNo` of the posts of the named type. */
  function PaginatedByType(db: Db, name: string, pageNo: int, per: nat): (r: seq<Post>)
    requires StoreValid(db)
    ensures |r| <= per
    ensures forall i :: 0 <= i < |r| ==> HasTypeName(db, name, r[i])
    ensures Subseq(r, Ordered(db))
    ensures NewestFirst(r)
    ensures |r| > 0 ==> PageOffset(pageNo, per) + |r| <= |OfType(db, name)|
    ensures forall k :: 0 <= k < |r| ==> r[k] == OfType(db, name)[PageOffset(pageNo, per) + k]
    ensures PageOffset(pageNo, per) < |OfType(db, name)| ==>
              |r| == Min(per, |OfType(db, name)| - PageOffset(pageNo, per))
    ensures PageOffset(pageNo, per) >= |OfType(db, name)| ==> |r| == 0
  {
    var all := OfType(db, name);
    PageIsSubseq(all, pageNo, per);
    SubseqTransitive(Page(all, pageNo, per), all, Ordered(db));
    SubseqKeepsSorted(Page(all, pageNo, per), all, NewestKey);
    Page(all, pageNo, per)
  }

  /** The posts of the named type that carry `tag`, in index order (`tagged_with(tag)`). */
  function OfTypeWithTag(db: Db, name: string, tag: string): (r: seq<Post>)
    requires StoreValid(db)
    ensures forall i :: 0 <= i < |r| ==> HasTypeName(db, name, r[i]) && tag in r[i].tags
    ensures forall p :: p in db.posts && HasTypeName(db, name, p) && tag in p.tags ==> p in r
    ensures Subseq(r, Ordered(db))
    ensures NewestFirst(r)
  {
    var typed := OfType(db, name);
    var r := Filter(typed, (p: Post) => tag in p.tags);
    SubseqMembers(r, typed);
    SubseqTransitive(r, typed, Ordered(db));
    SubseqKeepsSorted(r, typed, NewestKey);
    r
  }

  /** `paginated_by_type_with_tag(type, page_no, tag)`: page `pageNo` of the tagged posts of the named type. */
  function PaginatedByTypeWithTag(db: Db, name: string, pageNo: int, tag: string, per: nat): (r: seq<Post>)
    requires StoreValid(db)
    ensures |r| <= per
    ensures forall i :: 0 <= i < |r| ==> HasTypeName(db, name, r[i]) && tag in r[i].tags
    ensures Subseq(r, Ordered(db))
    ensures NewestFirst(r)
    ensures |r| > 0 ==> PageOffset(pageNo, per) + |r| <= |OfTypeWithTag(db, name, tag)|
    ensures forall k :: 0 <= k < |r| ==> r[k] == OfTypeWithTag(db, name, tag)[PageOffset(pageNo, per) + k]
    ensures PageOffset(pageNo, per) < |OfTypeWithTag(db, name, tag)| ==>
              |r| == Min(per, |OfTypeWithTag(db, name, tag)| - PageOffset(pageNo, per))
    ensures PageOffset(pageNo, per) >= |OfTypeWithTag(db, name, tag)| ==> |r| == 0
  {
    var all := OfTypeWithTag(db, name, tag);
    PageIsSubseq(all, pageNo, per);
    SubseqMembers(Page(all, pageNo, per), all);
    SubseqTransitive(Page(all, pageNo, per), all, Ordered(db));
    SubseqKeepsSorted(Page(all, pageNo, per), all, NewestKey);
    Page(all, pageNo, per)
  }

  /** Every stored post lies on some page of the index. */
  lemma EveryPostIsIndexed(db: Db, per: nat, p: Post)
    requires StoreValid(db) && per > 0 && p in db.posts
    ensures exists n: nat :: n >= 1 && p in ForIndex(db, n, per)
  {
    var all := Ordered(db);
    OnSomePage(all, per, p);
    var n: nat :| n >= 1 && p in Page(all, n, per);
    assert ForIndex(db, n, per) == Page(all, n, per);
  }

  /** Every stored post of the named type lies on some page of that type's listing. */
  lemma EveryPostOfTypeIsListed(db: Db, name: string, per: nat, p: Post)
    requires StoreValid(db) && per > 0 && p in db.posts && HasTypeName(db, name, p)
    ensures exists n: nat :: n >= 1 && p in PaginatedByType(db, name, n, per)
  {
    var all := OfType(db, name);
    OnSomePage(all, per, p);
    var n: nat :| n >= 1 && p in Page(all, n, per);
    assert PaginatedByType(db, name, n, per) == Page(all, n, per);
  }

  /** Index pages 1 through `m`, concatenated. */
  function IndexPages(db: Db, per: nat, m: nat): seq<Post>
    requires StoreValid(db)
  {
    if m == 0 then [] else IndexPages(db, per, m - 1) + ForIndex(db, m, per)
  }

  /** The index pages are the pages of the ordered table. */
  lemma {:induction false} IndexPagesArePages(db: Db, per: nat, m: nat)
    requires StoreValid(db)
    ensures IndexPages(db, per, m) == FirstPages(Ordered(db), per, m)
  {
    if m > 0 {
      IndexPagesArePages(db, per, m - 1);
    }
  }

  /**
   Reading the index pages 1..m in turn lists, in order and none twice, the
   newest posts up to where page m + 1 starts (offset `m * per`).
   */
  lemma IndexPagesReadInTurn(db: Db, per: nat, m: nat)
    requires StoreValid(db)
    ensures IndexPages(db, per, m) == Ordered(db)[..Min(PageOffset(m + 1, per), |db.posts|)]
  {
    IndexPagesArePages(db, per, m);
    FirstPagesUpTo(Ordered(db), per, m);
  }
}

=== FILE: results.dfy ===
/** Failure-carrying wrappers shared by the blog models. */
module Results {

  /** A value that may be absent; stands for Ruby's `nil`. */
  datatype Option<+T> = None | Some(value: T)

  /** Either a value or the error that prevented computing it. */
  datatype Result<+T, +E> = Ok(value: T) | Err(error: E)
}

=== FILE: seqs.dfy ===
/**
 Sequence operations behind the listing scopes: order-preserving filtering,
 a stable sort by an integer key, and 1-based pagination windows.
 */
module Seqs {

  function Min(a: int, b: int): int {
    if a < b then a else b
  }

  /** `a` can be obtained from `b` by deleting elements, keeping the order of the rest. */
  predicate Subseq<T(==)>(a: seq<T>, b: seq<T>)
    decreases |b|
  {
    || |a| == 0
    || (|b| > 0 && ((a[0] == b[0] && Subseq(a[1..], b[1..])) || Subseq(a, b[1..])))
  }

  lemma {:induction false} SubseqMembers<T>(a: seq<T>, b: seq<T>)
    requires Subseq(a, b)
    ensures forall x :: x in a ==> x in b
    decreases |b|
  {
    if |a| > 0 {
      if a[0] == b[0] && Subseq(a[1..], b[1..]) {
        SubseqMembers(a[1..], b[1..]);
        assert forall x :: x in a ==> x == a[0] || x in a[1..];
      } else {
        SubseqMembers(a, b[1..]);
      }
    }
  }

  lemma {:induction false} SubseqTransitive<T>(a: seq<T>, b: seq<T>, c: seq<T>)
    requires Subseq(a, b) && Subseq(b, c)
    ensures Subseq(a, c)
    decreases |c|
  {
    if |a| > 0 {
      if b[0] == c[0] && Subseq(b[1..], c[1..]) {
        if a[0] == b[0] && Subseq(a[1..], b[1..]) {
          SubseqTransitive(a[1..], b[1..], c[1..]);
        } else {
          SubseqTransitive(a, b[1..], c[1..]);
        }
      } else {
        SubseqTransitive(a, b, c[1..]);
      }
    }
  }

  /** Every contiguous slice is a sub-sequence. */
  lemma {:induction false} SliceIsSubseq<T>(s: seq<T>, lo: nat, hi: nat)
    requires lo <= hi <= |s|
    ensures Subseq(s[lo..hi], s)
    decreases |s|
  {
    if lo < hi {
      if lo > 0 {
        assert s[lo..hi] == s[1..][lo - 1..hi - 1];
        SliceIsSubseq(s[1..], lo - 1, hi - 1);
      } else {
        assert s[lo..hi][1..] == s[1..][0..hi - 1];
        SliceIsSubseq(s[1..], 0, hi - 1);
      }
    }
  }

  /** Two sequences with the same multiset of elements have the same members. */
  lemma SameMembers<T>(a: seq<T>, b: seq<T>)
    requires multiset(a) == multiset(b)
    ensures forall x :: x in a <==> x in b
  {
    forall x
      ensures x in a <==> x in b
    {
      assert x in a <==> x in multiset(a);
      assert x in b <==> x in multiset(b);
    }
  }

  /** The elements of `s` that `keep` accepts, in their original order. */
  function Filter<T(==)>(s: seq<T>, keep: T -> bool): (r: seq<T>)
    ensures forall i :: 0 <= i < |r| ==> keep(r[i])
    ensures forall x :: x in s && keep(x) ==> x in r
    ensures Subseq(r, s)
  {
    if |s| == 0 then []
    else if keep(s[0]) then [s[0]] + Filter(s[1..], keep)
    else Filter(s[1..], keep)
  }

  /** Keys never decrease along `s`. */
  predicate SortedBy<T>(s: seq<T>, key: T -> int) {
    forall i, j :: 0 <= i < j < |s| ==> key(s[i]) <= key(s[j])
  }

  /** Sortedness survives deleting elements. */
  lemma {:induction false} SubseqKeepsSorted<T>(a: seq<T>, b: seq<T>, key: T -> int)
    requires Subseq(a, b) && SortedBy(b, key)
    ensures SortedBy(a, key)
    decreases |b|
  {
    if |a| > 0 {
      if a[0] == b[0] && Subseq(a[1..], b[1..]) {
        SubseqKeepsSorted(a[1..], b[1..], key);
        SubseqMembers(a[1..], b[1..]);
        forall j | 0 < j < |a|
          ensures key(a[0]) <= key(a[j])
        {
          assert a[j] in b[1..];
        }
      } else {
        SubseqKeepsSorted(a, b[1..], key);
      }
    }
  }

  function Insert<T>(x: T, s: seq<T>, key: T -> int): (r: seq<T>)
    requires SortedBy(s, key)
    ensures SortedBy(r, key)
    ensures |r| == |s| + 1
    ensures key(r[0]) == key(x) || (|s| > 0 && key(r[0]) == key(s[0]))
    ensures multiset(r) == multiset(s) + multiset{x}
  {
    if |s| == 0 || key(x) <= key(s[0]) then [x] + s
    else
      assert s == [s[0]] + s[1..];
      [s[0]] + Insert(x, s[1..], key)
  }

  /** A stable insertion sort: keys ascending, same elements as `s`. */
  function SortBy<T>(s: seq<T>, key: T -> int): (r: seq<T>)
    ensures SortedBy(r, key)
    ensures multiset(r) == multiset(s)
  {
    if |s| == 0 then []
    else
      assert s == [s[0]] + s[1..];
      Insert(s[0], SortBy(s[1..], key), key)
  }

  /** Kaminari's offset for `page(n)`: page numbers below 1 read as page 1. */
  function PageOffset(pageNo: int, per: nat): nat {
    per * ((if pageNo < 1 then 1 else pageNo) - 1)
  }

  /** Page `pageNo` of `s` with `per` entries per page; a page past the end is empty. */
  function Page<T>(s: seq<T>, pageNo: int, per: nat): (r: seq<T>)
    ensures |r| <= per
    ensures |r| > 0 ==> PageOffset(pageNo, per) + |r| <= |s|
    ensures PageOffset(pageNo, per) >= |s| ==> |r| == 0
    ensures PageOffset(pageNo, per) < |s| ==> |r| == Min(per, |s| - PageOffset(pageNo, per))
    ensures forall k :: 0 <= k < |r| ==> r[k] == s[PageOffset(pageNo, per) + k]
  {
    var off := PageOffset(pageNo, per);
    if off >= |s| then [] else s[off..Min(off + per, |s|)]
  }

  lemma PageIsSubseq<T>(s: seq<T>, pageNo: int, per: nat)
    ensures Subseq(Page(s, pageNo, per), s)
  {
    var off := PageOffset(pageNo, per);
    if off < |s| {
      SliceIsSubseq(s, off, Min(off + per, |s|));
    }
  }

  /** The entry at index `i` of `s` is entry `i % per` of page `i / per + 1`. */
  lemma PageOfIndex<T>(s: seq<T>, per: nat, i: nat)
    requires per > 0 && i < |s|
    ensures var p := Page(s, i / per + 1, per);
            i % per < |p| && p[i % per] == s[i]
  {
    var q, m := i / per, i % per;
    assert i == per * q + m && 0 <= m < per;
    assert q >= 0;
    assert PageOffset(q + 1, per) == per * q;
    assert per * q < |s|;
  }

  /** Every entry of `s` lies on some page. */
  lemma OnSomePage<T>(s: seq<T>, per: nat, x: T)
    requires per > 0 && x in s
    ensures exists n: nat :: n >= 1 && x in Page(s, n, per)
  {
    var i :| 0 <= i < |s| && s[i] == x;
    var q := i / per;
    assert q >= 0;
    PageOfIndex(s, per, i);
    var n: nat := q + 1;
    assert x in Page(s, n, per);
  }

  /** Pages 1 through `m`, concatenated. */
  function FirstPages<T>(s: seq<T>, per: nat, m: nat): seq<T> {
    if m == 0 then [] else FirstPages(s, per, m - 1) + Page(s, m, per)
  }

  /** Pages 1..m end where page m + 1 would start. */
  lemma {:induction false} FirstPagesUpTo<T>(s: seq<T>, per: nat, m: nat)
    ensures FirstPages(s, per, m) == s[..Min(PageOffset(m + 1, per), |s|)]
  {
    if m > 0 {
      FirstPagesUpTo(s, per, m - 1);
      var off := PageOffset(m, per);
      PageOffsetStep(m, per);
      PageAsSlice(s, m, per);
      var lo, hi := Min(off, |s|), Min(off + per, |s|);
      assert s[..hi] == s[..lo] + s[lo..hi];
    }
  }

  lemma PageOffsetStep(m: nat, per: nat)
    requires m > 0
    ensures PageOffset(m + 1, per) == PageOffset(m, per) + per
  {
  }

  /** A page is the slice between its offset and the next page's offset, both clipped to the end. */
  lemma PageAsSlice<T>(s: seq<T>, pageNo: int, per: nat)
    ensures var off := PageOffset(pageNo, per);
            Page(s, pageNo, per) == s[Min(off, |s|)..Min(off + per, |s|)]
  {
  }
}

=== FILE: text.dfy ===
/**
 Character-level helpers standing in for the few Ruby string methods the
 blog models rely on: `blank?`, integer formatting and `String#to_i`.
 */
module Text {

  /** ASCII whitespace: space, tab, line feed, vertical tab, form feed, carriage return. */
  predicate IsSpace(c: char) {
    c == ' ' || ('\t' <= c <= '\r')
  }

  /** `blank?` on a string: empty or made only of whitespace. */
  predicate Blank(s: string) {
    forall i :: 0 <= i < |s| ==> IsSpace(s[i])
  }

  predicate IsDigit(c: char) {
    '0' <= c <= '9'
  }

  predicate AllDigits(s: string) {
    forall i :: 0 <= i < |s| ==> IsDigit(s[i])
  }

  function DigitChar(d: nat): (c: char)
    requires d < 10
    ensures IsDigit(c)
  {
    ('0' as int + d) as char
  }

  function DigitValue(c: char): nat
    requires IsDigit(c)
  {
    c as int - '0' as int
  }

  /** The decimal rendering of a natural number, as `#{n}` interpolation writes it. */
  function Decimal(n: nat): (s: string)
    ensures |s| >= 1
    ensures AllDigits(s)
    ensures s[0] == '0' ==> n == 0 && s == "0"
  {
    if n < 10 then [DigitChar(n)] else Decimal(n / 10) + [DigitChar(n % 10)]
  }

  /** The number a string of decimal digits denotes. */
  function DigitsValue(s: string): nat
    requires AllDigits(s)
    decreases |s|
  {
    if |s| == 0 then 0 else DigitsValue(s[..|s| - 1]) * 10 + DigitValue(s[|s| - 1])
  }

  /** The longest prefix of `s` made of decimal digits. */
  function LeadingDigits(s: string): (d: string)
    ensures d <= s
    ensures AllDigits(d)
    ensures |d| < |s| ==> !IsDigit(s[|d|])
  {
    if |s| > 0 && IsDigit(s[0]) then [s[0]] + LeadingDigits(s[1..]) else []
  }

  /** Ruby's `String#to_i` on a string with no sign and no leading blanks. */
  function ToI(s: string): nat {
    DigitsValue(LeadingDigits(s))
  }

  /** Reading back a decimal rendering gives the number. */
  lemma {:induction false} DecimalRoundTrip(n: nat)
    ensures DigitsValue(Decimal(n)) == n
  {
    if n >= 10 {
      var s := Decimal(n);
      assert s[..|s| - 1] == Decimal(n / 10);
      DecimalRoundTrip(n / 10);
    }
  }

  /** The digit prefix of `d + rest` is exactly `d` when `rest` does not continue the digits. */
  lemma {:induction false} LeadingDigitsOfPrefix(d: string, rest: string)
    requires AllDigits(d)
    requires |rest| == 0 || !IsDigit(rest[0])
    ensures LeadingDigits(d + rest) == d
  {
    if |d| > 0 {
      assert (d + rest)[1..] == d[1..] + rest;
      LeadingDigitsOfPrefix(d[1..], rest);
    } else {
      assert d + rest == rest;
    }
  }

  /** `to_i` of a number's rendering followed by a non-digit gives back the number. */
  lemma ToIRoundTrip(n: nat, rest: string)
    requires |rest| == 0 || !IsDigit(rest[0])
    ensures ToI(Decimal(n) + rest) == n
  {
    LeadingDigitsOfPrefix(Decimal(n), rest);
    DecimalRoundTrip(n);
  }
}

=== FILE: types.dfy ===
/**
 The post-type registry (`Blogit::Type`): a table of named categories such
 as "blog" and "press", with non-blank, unique names and ascending ids.
 */
module Types {
  import opened Results
  import opened Text
  import Seqs

  /** A row of the types table. */
  datatype Type = Type(id: nat, name: string)

  /** The types table in storage order, plus the id the next insert receives. */
  datatype Registry = Registry(types: seq<Type>, nextId: nat)

  /** The validation failures `Type` reports, in the order its validators run. */
  datatype TypeError = NameBlank | NameTaken

  /** What the table's validations and its primary key keep true of every stored row. */
  predicate Valid(reg: Registry) {
    && (forall i :: 0 <= i < |reg.types| ==> !Blank(reg.types[i].name) && reg.types[i].id < reg.nextId)
    && (forall i, j :: 0 <= i < j < |reg.types| ==>
          reg.types[i].name != reg.types[j].name && reg.types[i].id != reg.types[j].id)
  }

  /** Some stored type already carries `name`. */
  predicate Taken(reg: Registry, name: string) {
    exists i :: 0 <= i < |reg.types| && reg.types[i].name == name
  }

  /** The first type in `ts` whose `key` is `k`. */
  function FindBy<K(==)>(ts: seq<Type>, key: Type -> K, k: K): (r: Option<Type>)
    ensures r.Some? <==> exists i :: 0 <= i < |ts| && key(ts[i]) == k
    ensures r.Some? ==> r.value in ts && key(r.value) == k
  {
    if |ts| == 0 then None
    else if key(ts[0]) == k then Some(ts[0])
    else
      var r := FindBy(ts[1..], key, k);
      assert forall i :: 0 < i < |ts| ==> ts[i] == ts[1..][i - 1];
      r
  }

  /** `find_by_name`: the stored type with the given name, if any. */
  function FindByName(reg: Registry, name: string): (r: Option<Type>)
    ensures r.Some? <==> Taken(reg, name)
    ensures r.Some? ==> r.value in reg.types && r.value.name == name
  {
    FindBy(reg.types, (t: Type) => t.name, name)
  }

  /** Loading the `belongs_to :type` association: the stored type with the given id, if any. */
  function Lookup(reg: Registry, id: nat): (r: Option<Type>)
    ensures r.Some? <==> exists i :: 0 <= i < |reg.types| && reg.types[i].id == id
    ensures r.Some? ==> r.value in reg.types && r.value.id == id
  {
    FindBy(reg.types, (t: Type) => t.id, id)
  }

  /** In a valid table a type's id finds that very type. */
  lemma LookupStored(reg: Registry, t: Type)
    requires Valid(reg) && t in reg.types
    ensures Lookup(reg, t.id) == Some(t)
  {
  }

  /**
   `Type.create(name: name)`: runs the presence and uniqueness validations
   and, when both pass, appends one row with a fresh id.
   */
  function Create(reg: Registry, name: string): (r: Result<(Registry, Type), seq<TypeError>>)
    ensures r.Ok? <==> !Blank(name) && !Taken(reg, name)
    ensures r.Err? ==> (NameBlank in r.error <==> Blank(name))
    ensures r.Err? ==> (NameTaken in r.error <==> Taken(reg, name))
    ensures r.Ok? ==> var (reg', t) := r.value;
                      && |reg'.types| == |reg.types| + 1
                      && reg'.types[..|reg.types|] == reg.types
                      && reg'.types[|reg.types|] == t
                      && t.name == name
    ensures r.Ok? && Valid(reg) ==> Valid(r.value.0)
  {
    var errors := (if Blank(name) then [NameBlank] else []) + (if Taken(reg, name) then [NameTaken] else []);
    if |errors| > 0 then Err(errors)
    else
      var t := Type(reg.nextId, name);
      Ok((Registry(reg.types + [t], reg.nextId + 1), t))
  }

  /**
   `Type.find_or_create_by_name(name)`: the stored type of that name when
   there is one, otherwise the type `Create` adds.
   */
  function FindOrCreate(reg: Registry, name: string): (r: Result<(Registry, Type), seq<TypeError>>)
    ensures !Blank(name) ==> r.Ok?
    ensures r.Ok? ==> r.value.1.name == name && r.value.1 in r.value.0.types
    ensures Taken(reg, name) ==> r.Ok? && r.value.0 == reg
    ensures !Taken(reg, name) && r.Ok? ==>
              && |r.value.0.types| == |reg.types| + 1
              && r.value.0.types[..|reg.types|] == reg.types
              && r.value.0.types[|reg.types|] == r.value.1
    ensures r.Ok? && Valid(reg) ==> Valid(r.value.0)
  {
    match FindByName(reg, name)
    case Some(t) => Ok((reg, t))
    case None => Create(reg, name)
  }

  /** A select-box option: the type's name and id. */
  function OptionOf(t: Type): (string, nat) {
    (t.name, t.id)
  }

  /** The option of every type, position by position. */
  function OptionsOf(ts: seq<Type>): (opts: seq<(string, nat)>)
    ensures |opts| == |ts|
    ensures forall k :: 0 <= k < |ts| ==> opts[k] == OptionOf(ts[k])
  {
    seq(|ts|, k requires 0 <= k < |ts| => OptionOf(ts[k]))
  }

  /** `Type.to_options`: one (name, id) pair per stored type, ordered by id. */
  function ToOptions(reg: Registry): (opts: seq<(string, nat)>)
    ensures |opts| == |reg.types|
    ensures forall t :: t in reg.types ==> OptionOf(t) in opts
    ensures forall k :: 0 <= k < |opts| ==> Type(opts[k].1, opts[k].0) in reg.types
    ensures forall i, j :: 0 <= i < j < |opts| ==> opts[i].1 <= opts[j].1
  {
    var sorted := Seqs.SortBy(reg.types, (t: Type) => t.id as int);
    OptionsOfPermutation(reg.types, sorted);
    OptionsOf(sorted)
  }

  lemma OptionsOfPermutation(ts: seq<Type>, ps: seq<Type>)
    requires multiset(ps) == multiset(ts)
    ensures |ps| == |ts|
    ensures forall t :: t in ts ==> OptionOf(t) in OptionsOf(ps)
    ensures forall k :: 0 <= k < |ps| ==> Type(OptionsOf(ps)[k].1, OptionsOf(ps)[k].0) in ts
  {
    assert |multiset(ps)| == |multiset(ts)|;
    Seqs.SameMembers(ts, ps);
    var opts := OptionsOf(ps);
    forall t | t in ts
      ensures OptionOf(t) in opts
    {
      var k :| 0 <= k < |ps| && ps[k] == t;
      assert opts[k] == OptionOf(t);
    }
  }

  /** In a valid table the option list is strictly ascending by id, so no type is listed twice. */
  lemma ToOptionsStrictlyAscending(reg: Registry)
    requires Valid(reg)
    ensures var opts := ToOptions(reg);
            forall i, j :: 0 <= i < j < |opts| ==> opts[i].1 < opts[j].1
  {
    var opts := ToOptions(reg);
    forall i, j | 0 <= i < j < |opts|
      ensures opts[i].1 < opts[j].1
    {
      OptionsDistinct(reg, i, j);
    }
  }

  lemma OptionsDistinct(reg: Registry, i: nat, j: nat)
    requires Valid(reg)
    requires i < j < |ToOptions(reg)|
    ensures ToOptions(reg)[i] != ToOptions(reg)[j]
  {
    var sorted := Seqs.SortBy(reg.types, (t: Type) => t.id as int);
    assert multiset(sorted) == multiset(reg.types);
    DistinctAfterPermutation(reg.types, sorted, i, j);
  }

  /** A permutation of a table without repeated rows has no repeated rows. */
  lemma DistinctAfterPermutation(ts: seq<Type>, ps: seq<Type>, i: nat, j: nat)
    requires forall a, b :: 0 <= a < b < |ts| ==> ts[a] != ts[b]
    requires multiset(ps) == multiset(ts)
    requires i < j < |ps|
    ensures ps[i] != ps[j]
  {
    var x := ps[i];
    AtMostOnce(ts, x);
    assert ps == ps[..j] + [ps[j]] + ps[j + 1..];
    assert x in ps[..j];
    assert multiset(ps)[x] >= 1 + (if ps[j] == x then 1 else 0);
  }

  /** In a sequence without repeats every value occurs at most once. */
  lemma {:induction false} AtMostOnce<T>(ts: seq<T>, x: T)
    requires forall a, b :: 0 <= a < b < |ts| ==> ts[a] != ts[b]
    ensures multiset(ts)[x] <= 1
  {
    if |ts| > 0 {
      assert ts == [ts[0]] + ts[1..];
      AtMostOnce(ts[1..], x);
      assert ts[0] == x ==> x !in ts[1..];
    }
  }
}
